=== FILE: README.md ===
# recommend-crops, modelled in Dafny

This project models the `recommend-crops` edge function of the crop-advice
application: the Deno/Supabase handler that turns a farmer's location, soil
type and rainfall into crop recommendations. It has two parts.

- **Crop-name extraction.** The handler pulls crop names out of the
  English recommendation text with
  `text.match(/\d+\.\s+([^\n:]+)/g)?.map(m => m.replace(/\d+\.\s+/, '').trim()) || []`.
  `CropExtraction` models this with JavaScript regular-expression semantics:
  - The global scan is leftmost-first and resumes where the previous match ended.
  - `\d` matches ASCII digits only.
  - At a fixed start, the backtracking engine reports the split whose greedy quantifiers took the most, first quantifier first.
  - `replace` removes the first ordinal, and `trim` uses the same white-space set as `\s`.

  `MatchAt` and `Scan` are proved sound and complete against a declarative description: `Fits`, `Preferred` and `LeftmostChain`. `CropExtractionFacts` proves what that means for the names.
- **The request pipeline.** `RecommendCrops.Handle` is the handler as a pure function. Each awaited collaborator becomes the outcome it produced:
  - the identity check;
  - the parsed body;
  - the API key;
  - the two chat-completion calls;
  - the store insert.

  The result is the HTTP response together with the ordered trace of effects: user lookup, body read, completion calls, insert. A completion call is recorded as its key and what it asks for; `Prompts.CompletionFor` renders that into the request payload from the two prompt templates and the fixed model and personas. `JsValues` holds the JavaScript values that flow through, with `String(...)`, truthiness and `v || null`. `RecommendCropsFacts` states the handler's guarantees over all requests and all outcomes.

Files: `optional.dfy`, `values.dfy`, `extraction.dfy`, `prompts.dfy`, `pipeline.dfy` and `pipeline_facts.dfy`. All files are verified together; none includes another.

The code does not fall back to an empty Swahili text:
- A translation answer that is not ok is only logged, and the handler then reads its body as usual.
- If that read throws, the catch clause answers 500.

The template literal that builds the recommendation prompt can throw. `${v}` converts with `ToString`, and a JSON object with its own `toString` field has no callable method to convert with. So a body such as `{"location": {"toString": 1}, ...}` is answered 500 with "Cannot convert object to primitive value", before any completion call. An array holding such an object throws the same way through `join`.

## Model

| member | source | states |
|---|---|---|
| CropExtraction.ExtractCrops | supabase/functions/recommend-crops/index.ts:112-114 | Extraction is total. It yields no names exactly when no span of the text has the form digits, '.', white space, name characters; the optional chaining and the fallback to an empty array turn the missing match into `[]` |
| CropExtraction.GlobalMatch | supabase/functions/recommend-crops/index.ts:112 | `match` with the g flag returns null exactly when nothing fits the pattern, and otherwise a non-empty list |
| CropExtraction.MatchAt | supabase/functions/recommend-crops/index.ts:112 | The match tried at one position is the split that backtracking prefers among all splits that fit. When it reports none, no split starting there fits |
| CropExtraction.NextMatch | supabase/functions/recommend-crops/index.ts:112 | The next match is the leftmost one at or after the resume position: nothing fits between the two |
| CropExtraction.Scan | supabase/functions/recommend-crops/index.ts:112 | The global scan is a leftmost-first chain in which each search resumes at the previous match's end. Its matches are preferred splits and do not overlap |
| CropExtraction.ChainIsScan | supabase/functions/recommend-crops/index.ts:112 | Only one leftmost-first chain starts at a given position, so the scan is determined by the text |
| CropExtraction.RunEnd | supabase/functions/recommend-crops/index.ts:112 | A greedy class run stops at the first character outside the class; every character before it is inside |
| CropExtraction.RunEndUnique | supabase/functions/recommend-crops/index.ts:112 | Any end satisfying those two properties is the run end |
| CropExtraction.PreferredUnique | supabase/functions/recommend-crops/index.ts:112 | At most one split of a match starting at a given position is the engine's choice |
| CropExtraction.FirstOrdinal | supabase/functions/recommend-crops/index.ts:113 | `replace` with a non-global pattern acts on the leftmost ordinal; no ordinal starts before it, and when none is reported no ordinal starts anywhere after the search start |
| CropExtraction.StripOrdinal | supabase/functions/recommend-crops/index.ts:113 | `replace(/\d+\.\s+/, '')` leaves a text without an ordinal unchanged. Otherwise it cuts out exactly the leftmost ordinal, with its greedy white-space run, and keeps everything around it |
| CropExtraction.CleanName | supabase/functions/recommend-crops/index.ts:112-113 | The `.map` callback returns a trimmed string, no longer than the match, made only of characters the match contains |
| CropExtraction.Trim | supabase/functions/recommend-crops/index.ts:113 | `trim` returns a substring with no white space at either end and removes only white space |
| CropExtraction.TrimAllSpace | supabase/functions/recommend-crops/index.ts:113 | Trimming white space alone gives the empty string |
| CropExtraction.MatchShape | supabase/functions/recommend-crops/index.ts:112 | The capture runs to the end of the name characters. If `\s+` had to give characters back, the capture is that single character |
| CropExtraction.StripOrdinalOfMatch | supabase/functions/recommend-crops/index.ts:112-113 | Removing the ordinal from a whole match leaves the capture group, or the empty string when `\s+` backtracked |
| CropExtraction.CleanNameIsTrimmedGroup | supabase/functions/recommend-crops/index.ts:112-113 | Stripping the ordinal with a second pattern and trimming gives exactly the trimmed capture group |
| CropExtraction.BacktrackedCapture | supabase/functions/recommend-crops/index.ts:112-113 | When `\s+` backtracked, the trimmed capture group is empty |
| CropExtractionFacts.ExtractCropsAreTrimmedGroups | supabase/functions/recommend-crops/index.ts:112-114 | The k-th name is the trimmed capture group of the k-th match of the leftmost-first scan. The names come in text order |
| CropExtractionFacts.ExtractedNamesClean | supabase/functions/recommend-crops/index.ts:112-113 | Every name is trimmed and contains neither ':' nor a newline |
| CropExtractionFacts.NoOrdinalNoCrops | supabase/functions/recommend-crops/index.ts:112-114 | A text in which no digit is followed by '.' and white space yields `[]` |
| CropExtractionFacts.ExampleThreeCrops | supabase/functions/recommend-crops/index.ts:112-114 | "1. Maize\n2. Beans\n3. Cassava" yields Maize, Beans, Cassava |
| CropExtractionFacts.ExampleEmptyName | supabase/functions/recommend-crops/index.ts:112-114 | "1.  " still matches because `\s+` backtracks, and yields one empty name |
| JsValues.ToText | supabase/functions/recommend-crops/index.ts:44-46 | `${v}` gives "undefined" for undefined, as for a body without the field, "null" for null, "true" or "false" for a boolean, a string verbatim, a number its text, an object "[object Object]", an empty array "", and a one-item array its item's text, or "" for null and undefined. It is defined only for values that can be converted |
| JsValues.ArrayTextSplits | supabase/functions/recommend-crops/index.ts:44-46 | An array converts as `join(',')` does: the first item's text, a comma, then the text of the rest |
| JsValues.FalsyValues | supabase/functions/recommend-crops/index.ts:121 | A value is falsy exactly when it is undefined, null, false, 0, NaN or the empty string |
| JsValues.OrNull | supabase/functions/recommend-crops/index.ts:121 | `datasetId` or-null keeps a truthy value and turns every falsy one into null |
| Prompts.RecommendationPrompt | supabase/functions/recommend-crops/index.ts:41-55 | For fields that convert to text, the recommendation prompt is the constant template with `String` of location, soil type and rainfall at the offsets the template fixes |
| Prompts.SevenPieces | supabase/functions/recommend-crops/index.ts:41-55 | Each piece of the template concatenation sits at the offset given by the lengths of the pieces before it |
| Prompts.TranslationPrompt | supabase/functions/recommend-crops/index.ts:85-87 | The translation prompt is the fixed head followed by the English text, verbatim |
| Prompts.TranslationPromptRoundTrip | supabase/functions/recommend-crops/index.ts:85-87 | The English text can be read back from after the head, so the prompt neither loses nor adds anything |
| Prompts.CompletionFor | supabase/functions/recommend-crops/index.ts:57-102 | Both calls name the same model and send the key as a bearer token. The recommendation call uses the advisor persona and the filled template. The translation call uses the translator persona and a prompt from which the English text reads back unchanged |
| Prompts.Bearer | supabase/functions/recommend-crops/index.ts:60 | The Authorization header starts with the seven characters "Bearer ", and the key follows verbatim with nothing after it |
| RecommendCrops.Handle | supabase/functions/recommend-crops/index.ts:9-155 | Every response carries the CORS headers and one of 200, 400, 401 or 500. Effects are a prefix of: lookup, body read, recommendation call, translation call, insert; the third effect can only be the recommendation call and the fourth only the translation call. The full five-step trace occurs exactly when every step before the insert went through, the template conversion included |
| RecommendCrops.AfterAuth | supabase/functions/recommend-crops/index.ts:33-46 | Once the user is known, the body is read, the key checked and the template fields converted. Every outcome carries CORS and at least those two effects. An insert follows exactly when the body is usable, the key is set, every template field converts, the recommendation is ok and readable and the translation is readable |
| JsValues.Property | supabase/functions/recommend-crops/index.ts:33 | Reading one of the four destructured names (location, soilType, rainfall, datasetId) from a parsed JSON value gives the object's own field when it has one, and undefined otherwise, arrays and primitives included |
| RecommendCrops.Destructure | supabase/functions/recommend-crops/index.ts:33 | Destructuring reads exactly the four names location, soilType, rainfall and datasetId; a body that is not an object gives four undefined values |
| RecommendCrops.RowFor | supabase/functions/recommend-crops/index.ts:119-127 | The row's owner is the authenticated user. `dataset_id` is `datasetId` when that is truthy and null for every falsy `datasetId`, `""` and `0` included. `soil_data` has only the key soilType, and `climate_data` only location and rainfall, holding the body's values. The crop list is empty exactly when nothing in the text fits the pattern, and every crop is trimmed, without ':' or a newline. Both texts are stored |
| RecommendCrops.Generate | supabase/functions/recommend-crops/index.ts:57-82 | The recommendation call is the third effect: it carries the key and asks about the body's location, soil type and rainfall. An insert follows exactly when this answer is ok and readable and the translation is readable |
| RecommendCrops.Translate | supabase/functions/recommend-crops/index.ts:89-109 | The translation call is the fourth effect: it carries the key and asks for the English text. An insert follows exactly when its answer is readable, ok or not |
| RecommendCrops.Persist | supabase/functions/recommend-crops/index.ts:117-147 | 200 exactly when the store accepted the row, and 400 exactly when it reported an error |
| RecommendCrops.Caught | supabase/functions/recommend-crops/index.ts:148-153 | The catch clause answers 500 `{error: message}` with CORS headers and adds no effect |
| RecommendCropsFacts.PreflightIsInert | supabase/functions/recommend-crops/index.ts:10-12 | OPTIONS is answered 200 with only the CORS headers, no body and no effect |
| RecommendCropsFacts.UnauthorizedShortCircuits | supabase/functions/recommend-crops/index.ts:25-31 | An auth error or a missing user gives 401 `{error: "Unauthorized"}` after the lookup alone: no completion call, no insert |
| RecommendCropsFacts.LookupExceptionIsServerError | supabase/functions/recommend-crops/index.ts:25 | An identity check that throws instead of resolving is caught: 500 with its message after the lookup alone, and the body is never read |
| RecommendCropsFacts.UnauthorizedExactly | supabase/functions/recommend-crops/index.ts:25-31 | 401 is answered exactly for non-preflight requests whose identity check resolves with an error or without a user |
| RecommendCropsFacts.UnusableBodyIsServerError | supabase/functions/recommend-crops/index.ts:33 | A body that does not parse, or parses to null, throws in the destructuring. The answer is 500 with the parse error's message, or the destructuring TypeError's, before any completion call |
| RecommendCropsFacts.MissingKeyStopsBeforeCompletion | supabase/functions/recommend-crops/index.ts:35-38 | An unset or empty API key throws after the lookup and body read and before any completion call. The catch answers 500 with the key message |
| RecommendCropsFacts.UnprintableFieldIsServerError | supabase/functions/recommend-crops/index.ts:41-46 | A location, soil type or rainfall that cannot be converted to text throws while the prompt is built. The catch answers 500 "Cannot convert object to primitive value" after the lookup and body read alone |
| RecommendCropsFacts.ExampleShadowedToString | supabase/functions/recommend-crops/index.ts:41-46 | `{"location": {"toString": 1}, "soilType": "loam", "rainfall": 800}` is answered with that 500 |
| RecommendCropsFacts.RecommendationRequestSent | supabase/functions/recommend-crops/index.ts:57-70 | The third effect is the recommendation call for the body's fields. Its payload is: bearer key, fixed model, advisor persona, and the template filled from the body |
| RecommendCropsFacts.PrimaryNotOkHalts | supabase/functions/recommend-crops/index.ts:72-79 | A recommendation answer that is not ok gives 500 "Failed to generate recommendations" after one completion call: no translation, no insert |
| RecommendCropsFacts.PrimaryExceptionIsServerError | supabase/functions/recommend-crops/index.ts:81-82 | A recommendation call that throws, or whose answer cannot be read, gives 500 with that message after one completion call |
| RecommendCropsFacts.TranslationRequestSent | supabase/functions/recommend-crops/index.ts:85-102 | The fourth effect is the translation call for the English text. Its payload is: bearer key, fixed model, translator persona, and the English text after the fixed head |
| RecommendCropsFacts.TranslationStatusIgnored | supabase/functions/recommend-crops/index.ts:104-109 | Whether the translation answer is ok changes nothing in the outcome |
| RecommendCropsFacts.TranslationExceptionIsServerError | supabase/functions/recommend-crops/index.ts:104-109 | A translation that throws, or whose body cannot be read, gives 500 with that message after two completion calls, with no insert |
| RecommendCropsFacts.InsertExactlyWhenAllStepsSucceed | supabase/functions/recommend-crops/index.ts:117-129 | An insert happens exactly when every earlier step went through |
| RecommendCropsFacts.InsertedRow | supabase/functions/recommend-crops/index.ts:117-127 | The inserted row is built as follows: `user_id` is the authenticated user's id; `dataset_id` is `datasetId`, or null when it is falsy; `soil_data` is `{soilType}`; `climate_data` is `{location, rainfall}`; `recommended_crops` is the extraction of the English text; both texts are stored verbatim |
| RecommendCropsFacts.BodyCannotChooseOwner | supabase/functions/recommend-crops/index.ts:33 | A body field other than location, soilType, rainfall and datasetId, such as a `user_id`, changes neither the row nor the response |
| RecommendCropsFacts.StoreErrorIsClientError | supabase/functions/recommend-crops/index.ts:131-137 | An insert error gives 400 with the store's message |
| RecommendCropsFacts.StoredRowIsEchoed | supabase/functions/recommend-crops/index.ts:139-147 | Success is 200 `{recommendation}`: the stored row with `recommendationText` and `recommendationSwahili` added, and every other column unchanged |
| RecommendCropsFacts.SuccessExactly | supabase/functions/recommend-crops/index.ts:9-155 | 200 is answered exactly for preflights and for rows the store accepted |
| RecommendCropsFacts.ClientErrorExactly | supabase/functions/recommend-crops/index.ts:131-137 | 400 is answered exactly when the store rejected the insert |
| RecommendCropsFacts.ExampleThreeCropsStored | supabase/functions/recommend-crops/index.ts:112-124 | A recommendation that lists Maize, Beans and Cassava is stored with exactly those three crop names |

## Left out

- The dashboard page and the landing-page components: these are rendering, routing and toast state with no logic to model. The dashboard's request building uses `parseFloat`, which is floating point.
- HTTP itself is not modelled: the `serve` loop, `fetch` and the network. Each awaited call is a parameter holding the outcome it produced.
- Supabase client construction and the `SUPABASE_URL` / `SUPABASE_PUBLISHABLE_KEY` reads: the model assumes the client is constructed. The `Authorization` header is forwarded to the identity check, and the model sees only that check's outcome.
- `console.error` logging is not modelled, because it does not affect the response.
- The JSON decoding of completion answers (`aiData.choices[0].message.content`): the model treats the text as an opaque string, or an exception, supplied with the call's outcome. A content that is not a string, such as `null` making `.match` throw, is not modelled.
- Number formatting: a JSON number carries the text `String(n)` gives for it, because floating point is outside the model.
- JsValues.FalsyValues: a number counts as falsy by its text "0" or "NaN". That is right only for the canonical text `String(n)` gives; a `Num` built with a text such as "0.0" would count as truthy.
- Strings are sequences of characters, not UTF-16 code units. The white-space set is the full ECMAScript WhiteSpace plus LineTerminator set.
- JSON serialisation of response bodies and the key order of objects: bodies are kept as values, and objects as maps.
- RecommendCrops.DestructureMessage: the exact TypeError wording for destructuring `null` or `undefined` is the V8 engine's. Other engines word it differently.
- The row returned by `.select().single()` is taken as the store supplies it. What the store adds (the id, timestamps) is not modelled.
- A store call that throws instead of returning an error is not modelled: the store's outcome is either its error or the stored row.

=== FILE: extraction.dfy ===
/**
 * Crop-name extraction from the English recommendation text:
 *
 *   text.match(/\d+\.\s+([^\n:]+)/g)?.map(m => m.replace(/\d+\.\s+/, '').trim()) || []
 *
 * modelled with the JavaScript regular-expression semantics it relies on:
 * the global scan is leftmost-first and resumes where the previous match
 * ended; at a fixed start the backtracking engine returns, among all ways
 * the greedy quantifiers can split the text, the one whose quantifiers
 * matched the most, first quantifier first.
 */
module CropExtraction {
  import opened Optional

  /** `\d`: ASCII digits only. */
  predicate IsDigit(c: char)
  {
    '0' <= c <= '9'
  }

  /**
   * `\s`, which is also the set `String.prototype.trim` removes: the
   * ECMAScript WhiteSpace and LineTerminator code points.
   */
  predicate IsSpace(c: char)
  {
    || c == '\t' || c == '\n' || c == '\U{000B}' || c == '\U{000C}' || c == '\r'
    || c == ' ' || c == '\U{00A0}' || c == '\U{1680}'
    || ('\U{2000}' <= c <= '\U{200A}')
    || c == '\U{2028}' || c == '\U{2029}' || c == '\U{202F}' || c == '\U{205F}'
    || c == '\U{3000}' || c == '\U{FEFF}'
  }

  /** `[^\n:]`: the characters a crop name may contain. */
  predicate IsNameChar(c: char)
  {
    c != '\n' && c != ':'
  }

  /** The three character classes of the pattern. */
  datatype CharClass = Digit | Space | NameChar

  predicate InClass(k: CharClass, c: char)
  {
    match k
    case Digit => IsDigit(c)
    case Space => IsSpace(c)
    case NameChar => IsNameChar(c)
  }

  /** End of the longest run of class `k` starting at `i`: where a greedy `k*` stops. */
  function RunEnd(s: string, i: nat, k: CharClass): (r: nat)
    requires i <= |s|
    ensures i <= r <= |s|
    ensures forall j :: i <= j < r ==> InClass(k, s[j])
    ensures r == |s| || !InClass(k, s[r])
    decreases |s| - i
  {
    if i == |s| || !InClass(k, s[i]) then i else RunEnd(s, i + 1, k)
  }

  /** A run end is determined by its defining properties. */
  lemma {:induction false} RunEndUnique(s: string, i: nat, k: CharClass, r: nat)
    requires i <= r <= |s|
    requires forall j :: i <= j < r ==> InClass(k, s[j])
    requires r == |s| || !InClass(k, s[r])
    ensures RunEnd(s, i, k) == r
    decreases r - i
  {
    if i < r {
      RunEndUnique(s, i + 1, k, r);
    }
  }

  /** A run of class `k` from i never reaches past the run end. */
  lemma RunEndBound(s: string, i: nat, k: CharClass, r: nat)
    requires i <= r <= |s|
    requires forall j :: i <= j < r ==> InClass(k, s[j])
    ensures r <= RunEnd(s, i, k)
  {
  }

  // ---------------------------------------------------------------------
  // One match of /\d+\.\s+([^\n:]+)/
  // ---------------------------------------------------------------------

  /**
   * A match of the pattern: digits in [start, dot), '.' at dot, white space
   * in (dot, body), then name characters in [body, end). The capture group
   * is s[body..end] and the whole match is s[start..end].
   */
  datatype Span = Span(start: nat, dot: nat, body: nat, end: nat)

  /** The text s[m.start..m.end] is split by `m` as the pattern requires. */
  predicate Fits(s: string, m: Span)
  {
    && m.start < m.dot && m.dot + 1 < m.body && m.body < m.end <= |s|
    && (forall j :: m.start <= j < m.dot ==> IsDigit(s[j]))
    && s[m.dot] == '.'
    && (forall j :: m.dot < j < m.body ==> IsSpace(s[j]))
    && (forall j :: m.body <= j < m.end ==> IsNameChar(s[j]))
  }

  /**
   * Backtracking priority of two splits with the same start: greedy `\d+`
   * first, then greedy `\s+`, then greedy `[^\n:]+`.
   */
  predicate NoLaterThan(a: Span, b: Span)
  {
    || a.dot < b.dot
    || (a.dot == b.dot && a.body < b.body)
    || (a.dot == b.dot && a.body == b.body && a.end <= b.end)
  }

  /** `m` is the split the engine reports for a match starting at m.start. */
  ghost predicate Preferred(s: string, m: Span)
  {
    && Fits(s, m)
    && forall m': Span :: m'.start == m.start && Fits(s, m') ==> NoLaterThan(m', m)
  }

  /** At most one split is preferred at each start. */
  lemma PreferredUnique(s: string, m: Span, m': Span)
    requires Preferred(s, m) && Preferred(s, m') && m.start == m'.start
    ensures m == m'
  {
    assert NoLaterThan(m, m') && NoLaterThan(m', m);
  }

  /**
   * The largest b in [lo, hi] with b < |s| and s[b] a name character: the
   * point where a backtracking `\s+` (which ended at hi) first lets
   * `[^\n:]+` start.
   */
  function LastNameStart(s: string, lo: nat, hi: nat): (r: Option<nat>)
    requires hi <= |s|
    ensures r.Some? ==> lo <= r.value <= hi && r.value < |s| && IsNameChar(s[r.value])
    ensures r.Some? ==> forall b :: r.value < b <= hi && b < |s| ==> !IsNameChar(s[b])
    ensures r.None? ==> forall b :: lo <= b <= hi && b < |s| ==> !IsNameChar(s[b])
    decreases hi
  {
    if hi < lo then None
    else if hi < |s| && IsNameChar(s[hi]) then Some(hi)
    else if hi == 0 then None
    else LastNameStart(s, lo, hi - 1)
  }

  /** The match the engine finds when it tries the pattern at position i. */
  function MatchAt(s: string, i: nat): (r: Option<Span>)
    ensures r.Some? ==> r.value.start == i && Preferred(s, r.value)
    ensures r.None? ==> forall m: Span :: m.start == i ==> !Fits(s, m)
  {
    if i < |s| && IsDigit(s[i]) then
      var dot := RunEnd(s, i, Digit);
      if dot < |s| && s[dot] == '.' then
        var k := RunEnd(s, dot + 1, Space);
        var b := LastNameStart(s, dot + 2, k);
        if b.Some? then
          var m := Span(i, dot, b.value, RunEnd(s, b.value, NameChar));
          MatchAtPreferred(s, m, k);
          Some(m)
        else
          MatchAtNone(s, i, dot, k);
          None
      else
        DotMissing(s, i, dot);
        None
    else
      None
  }

  /**
   * Any split starting at i puts its '.' at the end of the digit run and
   * starts its capture no later than the end of the white-space run after it.
   */
  lemma FitsAnchors(s: string, m: Span)
    requires Fits(s, m)
    ensures RunEnd(s, m.start, Digit) == m.dot
    ensures m.body <= RunEnd(s, m.dot + 1, Space)
    ensures m.body < |s| && IsNameChar(s[m.body])
  {
    RunEndUnique(s, m.start, Digit, m.dot);
    RunEndBound(s, m.dot + 1, Space, m.body);
  }

  lemma DotMissing(s: string, i: nat, dot: nat)
    requires i <= |s| && dot == RunEnd(s, i, Digit)
    requires !(dot < |s| && s[dot] == '.')
    ensures forall m: Span :: m.start == i ==> !Fits(s, m)
  {
    forall m: Span | m.start == i && Fits(s, m)
      ensures false
    {
      FitsAnchors(s, m);
    }
  }

  lemma MatchAtNone(s: string, i: nat, dot: nat, k: nat)
    requires i < |s| && dot == RunEnd(s, i, Digit) && dot < |s| && s[dot] == '.'
    requires k == RunEnd(s, dot + 1, Space)
    requires LastNameStart(s, dot + 2, k).None?
    ensures forall m: Span :: m.start == i ==> !Fits(s, m)
  {
    forall m: Span | m.start == i && Fits(s, m)
      ensures false
    {
      FitsAnchors(s, m);
    }
  }

  lemma MatchAtPreferred(s: string, m: Span, k: nat)
    requires m.start < |s| && IsDigit(s[m.start])
    requires m.dot == RunEnd(s, m.start, Digit) && m.dot < |s| && s[m.dot] == '.'
    requires k == RunEnd(s, m.dot + 1, Space)
    requires LastNameStart(s, m.dot + 2, k) == Some(m.body)
    requires m.end == RunEnd(s, m.body, NameChar)
    ensures Preferred(s, m)
  {
    assert Fits(s, m);
    forall m': Span | m'.start == m.start && Fits(s, m')
      ensures NoLaterThan(m', m)
    {
      FitsAnchors(s, m');
      RunEndBound(s, m'.body, NameChar, m'.end);
    }
  }

  // ---------------------------------------------------------------------
  // The global scan of String.prototype.match with the g flag
  // ---------------------------------------------------------------------

  /** The leftmost match starting at or after pos. */
  function NextMatch(s: string, pos: nat): (r: Option<Span>)
    requires pos <= |s|
    ensures r.Some? ==> pos <= r.value.start && Preferred(s, r.value)
    ensures r.Some? ==> forall m: Span :: pos <= m.start < r.value.start ==> !Fits(s, m)
    ensures r.None? ==> forall m: Span :: pos <= m.start ==> !Fits(s, m)
    decreases |s| - pos
  {
    if pos == |s| then None
    else
      match MatchAt(s, pos)
      case Some(m) => Some(m)
      case None => NextMatch(s, pos + 1)
  }

  /**
   * Reference description of the scan: `ms` are the matches reported when
   * scanning resumes at pos, each the leftmost one after its predecessor.
   */
  ghost predicate LeftmostChain(s: string, pos: nat, ms: seq<Span>)
    decreases |ms|
  {
    if ms == [] then
      forall m: Span :: pos <= m.start ==> !Fits(s, m)
    else
      && pos <= ms[0].start
      && Preferred(s, ms[0])
      && (forall m: Span :: pos <= m.start < ms[0].start ==> !Fits(s, m))
      && LeftmostChain(s, ms[0].end, ms[1..])
  }

  /** All matches from pos on, in the order the scan reports them. */
  function Scan(s: string, pos: nat): (ms: seq<Span>)
    requires pos <= |s|
    ensures LeftmostChain(s, pos, ms)
    ensures forall k :: 0 <= k < |ms| ==> pos <= ms[k].start && Preferred(s, ms[k])
    ensures forall k :: 0 <= k < |ms| - 1 ==> ms[k].end <= ms[k + 1].start
    decreases |s| - pos
  {
    match NextMatch(s, pos)
    case None => []
    case Some(m) =>
      var rest := Scan(s, m.end);
      assert ([m] + rest)[1..] == rest;
      [m] + rest
  }

  /** The leftmost-first chain from a position is unique: the scan is the only one. */
  lemma {:induction false} ChainIsScan(s: string, pos: nat, ms: seq<Span>)
    requires pos <= |s|
    requires LeftmostChain(s, pos, ms)
    ensures ms == Scan(s, pos)
    decreases |ms|
  {
    var sc := Scan(s, pos);
    assert (ms == []) == (sc == []);
    if ms != [] {
      assert ms[0].start == sc[0].start;
      PreferredUnique(s, ms[0], sc[0]);
      ChainIsScan(s, ms[0].end, ms[1..]);
    }
  }

  // ---------------------------------------------------------------------
  // Turning one whole match into a crop name
  // ---------------------------------------------------------------------

  /** End of an occurrence of /\d+\.\s+/ starting at j, if there is one. */
  function OrdinalEndAt(t: string, j: nat): (r: Option<nat>)
    ensures r.Some? ==> j < r.value <= |t|
  {
    if j < |t| && IsDigit(t[j]) then
      var d := RunEnd(t, j, Digit);
      if d + 1 < |t| && t[d] == '.' && IsSpace(t[d + 1]) then Some(RunEnd(t, d + 1, Space))
      else None
    else None
  }

  /** The leftmost occurrence of /\d+\.\s+/ at or after j. */
  function FirstOrdinal(t: string, j: nat): (r: Option<(nat, nat)>)
    ensures r.Some? ==> j <= r.value.0 < r.value.1 <= |t|
    ensures r.Some? ==> OrdinalEndAt(t, r.value.0) == Some(r.value.1)
    ensures r.Some? ==> forall i :: j <= i < r.value.0 ==> OrdinalEndAt(t, i).None?
    ensures r.None? ==> forall i :: j <= i < |t| ==> OrdinalEndAt(t, i).None?
    decreases |t| - j
  {
    if j >= |t| then None
    else
      match OrdinalEndAt(t, j)
      case Some(e) => Some((j, e))
      case None => FirstOrdinal(t, j + 1)
  }

  /**
   * `t.replace(/\d+\.\s+/, '')`: the leftmost occurrence is removed, and
   * a text without one is returned unchanged.
   */
  function StripOrdinal(t: string): (r: string)
    ensures (forall i :: 0 <= i < |t| ==> OrdinalEndAt(t, i).None?) ==> r == t
    ensures forall a :: 0 <= a < |t| && OrdinalEndAt(t, a).Some? && (forall i :: 0 <= i < a ==> OrdinalEndAt(t, i).None?)
              ==> r == t[..a] + t[OrdinalEndAt(t, a).value..]
  {
    match FirstOrdinal(t, 0)
    case None => t
    case Some((a, e)) => t[..a] + t[e..]
  }

  /** No white space at either end. */
  predicate IsTrimmed(t: string)
  {
    |t| == 0 || (!IsSpace(t[0]) && !IsSpace(t[|t| - 1]))
  }

  /** `r` is `t` with only white space removed, before offset a and after a + |r|. */
  ghost predicate StripsSpaceOnly(t: string, r: string, a: nat)
  {
    && a + |r| <= |t|
    && r == t[a..a + |r|]
    && (forall j :: 0 <= j < a ==> IsSpace(t[j]))
    && (forall j :: a + |r| <= j < |t| ==> IsSpace(t[j]))
  }

  /** The start of the trailing white space of t[lo..hi]. */
  function TrailingSpaceStart(t: string, lo: nat, hi: nat): (r: nat)
    requires lo <= hi <= |t|
    ensures lo <= r <= hi
    ensures forall j :: r <= j < hi ==> IsSpace(t[j])
    ensures r == lo || !IsSpace(t[r - 1])
    decreases hi
  {
    if hi == lo || !IsSpace(t[hi - 1]) then hi else TrailingSpaceStart(t, lo, hi - 1)
  }

  /** `String.prototype.trim`. */
  function Trim(t: string): (r: string)
    ensures IsTrimmed(r)
    ensures exists a: nat :: StripsSpaceOnly(t, r, a)
    ensures forall c :: c in r ==> c in t
  {
    var a := RunEnd(t, 0, Space);
    var b := TrailingSpaceStart(t, a, |t|);
    assert StripsSpaceOnly(t, t[a..b], a);
    t[a..b]
  }

  /** Trimming a string of white space only gives the empty string. */
  lemma TrimAllSpace(t: string)
    requires forall j :: 0 <= j < |t| ==> IsSpace(t[j])
    ensures Trim(t) == ""
  {
    var r := Trim(t);
    var a: nat :| StripsSpaceOnly(t, r, a);
  }

  /** The preferred match at a start is the one the engine computes. */
  lemma PreferredIsComputed(s: string, m: Span)
    requires Preferred(s, m)
    ensures MatchAt(s, m.start) == Some(m)
  {
    var r := MatchAt(s, m.start);
    assert r.Some?;
    PreferredUnique(s, m, r.value);
  }

  /**
   * How a match ends: the name run is maximal, and when `\s+` had to give
   * characters back (the capture starts inside the white-space run), the
   * capture is the single character where it starts.
   */
  lemma MatchShape(s: string, m: Span)
    requires Preferred(s, m)
    ensures m.end == RunEnd(s, m.body, NameChar)
    ensures m.body <= RunEnd(s, m.dot + 1, Space)
    ensures m.body < RunEnd(s, m.dot + 1, Space) ==> m.end == m.body + 1
  {
    PreferredIsComputed(s, m);
    FitsAnchors(s, m);
  }

  /**
   * Removing /\d+\.\s+/ from a whole match leaves the capture group when
   * the capture starts after the white-space run, and the empty string when
   * `\s+` had to give characters back for the capture.
   */
  lemma StripOrdinalOfMatch(s: string, m: Span)
    requires Preferred(s, m)
    ensures StripOrdinal(s[m.start..m.end])
            == if m.end <= RunEnd(s, m.dot + 1, Space) then "" else s[m.body..m.end]
  {
    var k := RunEnd(s, m.dot + 1, Space);
    StripMatchToRunEnd(s, m);
    if k < m.end {
      MatchShape(s, m);
      assert m.body == k;
    }
  }

  /** Stripping a whole match keeps what follows its white-space run. */
  lemma StripMatchToRunEnd(s: string, m: Span)
    requires Preferred(s, m)
    ensures var k := RunEnd(s, m.dot + 1, Space);
            StripOrdinal(s[m.start..m.end]) == s[if k < m.end then k else m.end..m.end]
  {
    var t := s[m.start..m.end];
    var k := RunEnd(s, m.dot + 1, Space);
    var x := if k < m.end then k else m.end;
    MatchOrdinalEnd(s, m);
    StripLeadingOrdinal(t, x - m.start);
    assert t[x - m.start..] == s[x..m.end];
  }

  /** A whole match starts with an ordinal that ends with the match's white-space run, cut at the match's end. */
  lemma MatchOrdinalEnd(s: string, m: Span)
    requires Preferred(s, m)
    ensures var k := RunEnd(s, m.dot + 1, Space);
            OrdinalEndAt(s[m.start..m.end], 0) == Some((if k < m.end then k else m.end) - m.start)
  {
    MatchShape(s, m);
    var t := s[m.start..m.end];
    var k := RunEnd(s, m.dot + 1, Space);
    var x := if k < m.end then k else m.end;
    var d := m.dot - m.start;
    RunEndUnique(t, 0, Digit, d);
    RunEndUnique(t, d + 1, Space, x - m.start);
  }

  /** A text that starts with an ordinal loses exactly that ordinal. */
  lemma StripLeadingOrdinal(t: string, e: nat)
    requires OrdinalEndAt(t, 0) == Some(e)
    ensures StripOrdinal(t) == t[e..]
  {
    assert FirstOrdinal(t, 0) == Some((0, e));
  }

  /** A whole match as `.map` receives it, made into a crop name. */
  function CleanName(whole: string): (r: string)
    ensures IsTrimmed(r)
    ensures |r| <= |whole| && forall c :: c in r ==> c in whole
  {
    Trim(StripOrdinal(whole))
  }

  /**
   * The name the code derives from a match is the trimmed capture group:
   * stripping the ordinal with a second regular expression agrees with
   * reading group 1.
   */
  lemma CleanNameIsTrimmedGroup(s: string, m: Span)
    requires Preferred(s, m)
    ensures CleanName(s[m.start..m.end]) == Trim(s[m.body..m.end])
  {
    StripOrdinalOfMatch(s, m);
    if m.end <= RunEnd(s, m.dot + 1, Space) {
      BacktrackedCapture(s, m);
    }
  }

  /** When `\s+` gave characters back, both readings of the name are empty. */
  lemma BacktrackedCapture(s: string, m: Span)
    requires Preferred(s, m)
    requires m.end <= RunEnd(s, m.dot + 1, Space)
    ensures Trim(s[m.body..m.end]) == ""
  {
    MatchShape(s, m);
    var g := s[m.body..m.end];
    assert |g| == 1 && g[0] == s[m.body];
    TrimAllSpace(g);
  }

  // ---------------------------------------------------------------------
  // The extraction
  // ---------------------------------------------------------------------

  /** `s.match(/\d+\.\s+([^\n:]+)/g)`: the whole matches, or null when there are none. */
  function GlobalMatch(s: string): (r: Option<seq<string>>)
    ensures r.None? <==> forall m: Span :: !Fits(s, m)
    ensures r.Some? ==> |r.value| > 0
  {
    var ms := Scan(s, 0);
    if ms == [] then None
    else Some(seq(|ms|, k requires 0 <= k < |ms| => s[ms[k].start..ms[k].end]))
  }

  /** The crop names of a recommendation text; `?.` and `|| []` turn null into []. */
  function ExtractCrops(s: string): (r: seq<string>)
    ensures r == [] <==> forall m: Span :: !Fits(s, m)
  {
    match GlobalMatch(s)
    case None => []
    case Some(whole) => seq(|whole|, k requires 0 <= k < |whole| => CleanName(whole[k]))
  }
}

/** What the extraction promises about the names it returns. */
module CropExtractionFacts {
  import opened Optional
  import opened CropExtraction

  /**
   * The k-th name is the trimmed capture group of the k-th match of the
   * leftmost-first scan, and the matches follow one another in the text.
   */
  lemma ExtractCropsAreTrimmedGroups(s: string)
    ensures var ms := Scan(s, 0);
            && LeftmostChain(s, 0, ms)
            && |ExtractCrops(s)| == |ms|
            && (forall k :: 0 <= k < |ms| ==> ExtractCrops(s)[k] == Trim(s[ms[k].body..ms[k].end]))
            && (forall k :: 0 <= k < |ms| - 1 ==> ms[k].end <= ms[k + 1].start)
  {
    var ms := Scan(s, 0);
    var r := ExtractCrops(s);
    forall k | 0 <= k < |ms|
      ensures r[k] == Trim(s[ms[k].body..ms[k].end])
    {
      CleanNameIsTrimmedGroup(s, ms[k]);
    }
  }

  /** Every name is trimmed and holds neither ':' nor a newline. */
  lemma ExtractedNamesClean(s: string)
    ensures forall k :: 0 <= k < |ExtractCrops(s)| ==>
              && IsTrimmed(ExtractCrops(s)[k])
              && ':' !in ExtractCrops(s)[k]
              && '\n' !in ExtractCrops(s)[k]
  {
    ExtractCropsAreTrimmedGroups(s);
    var ms := Scan(s, 0);
    var r := ExtractCrops(s);
    forall k | 0 <= k < |r|
      ensures ':' !in r[k] && '\n' !in r[k]
    {
      TrimmedGroupClean(s, ms[k]);
    }
  }

  lemma TrimmedGroupClean(s: string, m: Span)
    requires Fits(s, m)
    ensures ':' !in Trim(s[m.body..m.end]) && '\n' !in Trim(s[m.body..m.end])
  {
    var g := s[m.body..m.end];
    assert forall c :: c in g ==> IsNameChar(c);
  }

  /** A text with no digit followed by '.' and white space yields no names. */
  lemma NoOrdinalNoCrops(s: string)
    requires forall i :: 0 <= i < |s| - 2 ==> !(IsDigit(s[i]) && s[i + 1] == '.' && IsSpace(s[i + 2]))
    ensures ExtractCrops(s) == []
  {
    forall m: Span | Fits(s, m)
      ensures false
    {
      OrdinalBeforeCapture(s, m);
    }
  }

  lemma OrdinalBeforeCapture(s: string, m: Span)
    requires Fits(s, m)
    ensures m.dot + 1 < |s|
    ensures IsDigit(s[m.dot - 1]) && s[m.dot] == '.' && IsSpace(s[m.dot + 1])
  {
  }

  const ThreeCrops := "1. Maize\n2. Beans\n3. Cassava"

  /** A three-item numbered list, one name per line. */
  lemma ExampleThreeCrops()
    ensures ExtractCrops(ThreeCrops) == ["Maize", "Beans", "Cassava"]
  {
    var r := ExtractCrops(ThreeCrops);
    assert |r| == 3 && r[0] == "Maize" && r[1] == "Beans" && r[2] == "Cassava" by {
      ExampleGroups();
      ExampleNameSlices();
      ExampleNamesTrimmed(ThreeCrops);
    }
    ThreeElements(r, "Maize", "Beans", "Cassava");
  }

  lemma ThreeElements<T>(r: seq<T>, a: T, b: T, c: T)
    requires |r| == 3 && r[0] == a && r[1] == b && r[2] == c
    ensures r == [a, b, c]
  {
  }

  lemma ExampleGroups()
    ensures var r := ExtractCrops(ThreeCrops);
            && |r| == 3
            && r[0] == Trim(ThreeCrops[3..8])
            && r[1] == Trim(ThreeCrops[12..17])
            && r[2] == Trim(ThreeCrops[21..28])
  {
    ExampleThreeCropsScan();
    ExtractCropsAreTrimmedGroups(ThreeCrops);
  }

  lemma ExampleNameSlices()
    ensures ThreeCrops[3..8] == "Maize"
    ensures ThreeCrops[12..17] == "Beans"
    ensures ThreeCrops[21..28] == "Cassava"
  {
    var s := ThreeCrops;
    assert s[3] == 'M' && s[4] == 'a' && s[5] == 'i' && s[6] == 'z' && s[7] == 'e';
    assert s[12] == 'B' && s[13] == 'e' && s[14] == 'a' && s[15] == 'n' && s[16] == 's';
    assert s[21] == 'C' && s[22] == 'a' && s[23] == 's' && s[24] == 's';
    assert s[25] == 'a' && s[26] == 'v' && s[27] == 'a';
    var maize, beans, cassava := s[3..8], s[12..17], s[21..28];
    assert maize[0] == 'M' && maize[1] == 'a' && maize[2] == 'i' && maize[3] == 'z' && maize[4] == 'e';
    assert beans[0] == 'B' && beans[1] == 'e' && beans[2] == 'a' && beans[3] == 'n' && beans[4] == 's';
    assert cassava[0] == 'C' && cassava[1] == 'a' && cassava[2] == 's' && cassava[3] == 's';
    assert cassava[4] == 'a' && cassava[5] == 'v' && cassava[6] == 'a';
  }

  lemma ExampleNamesTrimmed(s: string)
    requires s == ThreeCrops
    ensures Trim(s[3..8]) == s[3..8]
    ensures Trim(s[12..17]) == s[12..17]
    ensures Trim(s[21..28]) == s[21..28]
  {
    ExampleNameTrimmed(s, 3, 8);
    ExampleNameTrimmed(s, 12, 17);
    ExampleNameTrimmed(s, 21, 28);
  }

  lemma ExampleNameTrimmed(s: string, i: nat, j: nat)
    requires s == ThreeCrops
    requires (i, j) == (3, 8) || (i, j) == (12, 17) || (i, j) == (21, 28)
    ensures Trim(s[i..j]) == s[i..j]
  {
    assert s[i] != ' ' && s[i] != '\n' && s[j - 1] != ' ' && s[j - 1] != '\n';
    assert !IsSpace(s[i]) && !IsSpace(s[j - 1]);
    SliceTrimmed(s, i, j);
  }

  /** A slice that neither starts nor ends with white space is its own trim. */
  lemma SliceTrimmed(s: string, i: nat, j: nat)
    requires i < j <= |s| && !IsSpace(s[i]) && !IsSpace(s[j - 1])
    ensures Trim(s[i..j]) == s[i..j]
  {
    var t := s[i..j];
    assert t[0] == s[i] && t[|t| - 1] == s[j - 1];
    TrimmedAlready(t);
  }

  lemma ExampleThreeCropsScan()
    ensures Scan(ThreeCrops, 0) == [Span(0, 1, 3, 8), Span(9, 10, 12, 17), Span(18, 19, 21, 28)]
  {
    ExampleFirstMatch();
    ScanStep(ThreeCrops, 0, Span(0, 1, 3, 8));
    ExampleScanFrom8();
  }

  lemma ExampleFirstMatch()
    ensures NextMatch(ThreeCrops, 0) == Some(Span(0, 1, 3, 8))
  {
    MatchAtExample(ThreeCrops, 0, 1, 3, 8);
  }

  lemma ExampleScanFrom8()
    ensures Scan(ThreeCrops, 8) == [Span(9, 10, 12, 17), Span(18, 19, 21, 28)]
  {
    ExampleSecondMatch();
    ScanStep(ThreeCrops, 8, Span(9, 10, 12, 17));
    ExampleScanFrom17();
  }

  lemma ExampleSecondMatch()
    ensures NextMatch(ThreeCrops, 8) == Some(Span(9, 10, 12, 17))
  {
    NoMatchAtNewline(ThreeCrops, 8);
    ExampleMatchAt9();
  }

  lemma ExampleMatchAt9()
    ensures MatchAt(ThreeCrops, 9) == Some(Span(9, 10, 12, 17))
  {
    var s := ThreeCrops;
    assert s[9] == '2' && s[10] == '.' && s[11] == ' ' && s[12] == 'B' && s[17] == '\n';
    assert forall j :: 12 <= j < 17 ==> IsNameChar(s[j]);
    MatchAtExample(s, 9, 10, 12, 17);
  }

  lemma ExampleScanFrom17()
    ensures Scan(ThreeCrops, 17) == [Span(18, 19, 21, 28)]
  {
    NoMatchAtNewline(ThreeCrops, 17);
    MatchAtExample(ThreeCrops, 18, 19, 21, 28);
    assert NextMatch(ThreeCrops, 17) == Some(Span(18, 19, 21, 28));
    assert Scan(ThreeCrops, 28) == [];
  }

  const SpacesOnly := "1.  "

  /**
   * When nothing but white space follows the ordinal, `\s+` gives its last
   * character back to the capture group, so the text still matches and
   * yields one empty name: names are not guaranteed non-empty.
   */
  lemma ExampleEmptyName()
    ensures ExtractCrops(SpacesOnly) == [""]
  {
    EmptyNameScan();
    EmptyNameClean();
    var r := ExtractCrops(SpacesOnly);
    assert |r| == 1 && r[0] == CleanName(SpacesOnly[0..4]);
  }

  lemma EmptyNameClean()
    ensures CleanName(SpacesOnly[0..4]) == ""
  {
    var m := Span(0, 1, 3, 4);
    EmptyNameScan();
    CleanNameIsTrimmedGroup(SpacesOnly, m);
    BacktrackedCapture(SpacesOnly, m);
  }

  lemma EmptyNameScan()
    ensures Scan(SpacesOnly, 0) == [Span(0, 1, 3, 4)]
  {
    var s := SpacesOnly;
    assert MatchAt(s, 0) == Some(Span(0, 1, 3, 4)) by {
      assert s[0] == '1' && s[1] == '.' && s[2] == ' ' && s[3] == ' ';
      RunEndUnique(s, 0, Digit, 1);
      RunEndUnique(s, 2, Space, 4);
      RunEndUnique(s, 3, NameChar, 4);
      assert LastNameStart(s, 3, 4) == Some(3);
    }
    ScanStep(s, 0, Span(0, 1, 3, 4));
  }

  lemma ScanStep(s: string, pos: nat, m: Span)
    requires pos <= |s| && NextMatch(s, pos) == Some(m)
    ensures m.end <= |s| && Scan(s, pos) == [m] + Scan(s, m.end)
  {
  }

  lemma NoMatchAtNewline(s: string, i: nat)
    requires i < |s| && s[i] == '\n'
    ensures MatchAt(s, i).None?
  {
  }

  /** A string without white space at its ends is its own trim. */
  lemma TrimmedAlready(t: string)
    requires IsTrimmed(t)
    ensures Trim(t) == t
  {
    if |t| > 0 {
      RunEndUnique(t, 0, Space, 0);
      assert TrailingSpaceStart(t, 0, |t|) == |t|;
    }
  }

  /** One numbered line "N. name" with a single space, evaluated step by step. */
  lemma MatchAtExample(s: string, i: nat, dot: nat, body: nat, end: nat)
    requires i + 1 == dot && dot + 2 == body && body < end <= |s|
    requires IsDigit(s[i]) && s[dot] == '.' && s[dot + 1] == ' ' && !IsSpace(s[body])
    requires end == |s| || s[end] == '\n'
    requires forall j :: body <= j < end ==> IsNameChar(s[j])
    ensures MatchAt(s, i) == Some(Span(i, dot, body, end))
  {
    RunEndUnique(s, i, Digit, dot);
    RunEndUnique(s, dot + 1, Space, body);
    RunEndUnique(s, body, NameChar, end);
  }
}

=== FILE: optional.dfy ===
/** The optional-value type shared by the other modules. */
module Optional {

  /** Either no value (a JavaScript `null` or `undefined` result) or one value. */
  datatype Option<+T> = None | Some(value: T)
}

=== FILE: pipeline.dfy ===
/**
 * The `recommend-crops` request handler as a pure function. Every
 * collaborator the handler awaits (the identity check, the request body,
 * the API-key environment variable, the two completion calls and the store
 * insert) is replaced by the outcome it produced, and the handler returns
 * the HTTP response together with the trace of effects it caused, in order.
 */
module RecommendCrops {
  import opened Optional
  import opened JsValues
  import opened CropExtraction
  import CropExtractionFacts
  import opened Prompts

  // ---------------------------------------------------------------------
  // Collaborator outcomes
  // ---------------------------------------------------------------------

  /** What `await req.json()` produced: a parsed JSON value, or a parse failure. */
  datatype BodyRead = Parsed(json: Value) | Unparsable(message: string)

  /** The incoming request: its HTTP method and its body. */
  datatype Request = Request(httpMethod: string, body: BodyRead)

  datatype User = User(id: string)

  /**
   * `await supabase.auth.getUser()`: it resolved with an error (if any) and
   * the user (if any), or it rejected with an exception.
   */
  datatype AuthResult = Checked(error: Option<string>, user: Option<User>) | LookupThrew(message: string)

  /** Reading a completion response body: its text, or the exception the read threw. */
  datatype BodyText = Content(text: string) | ReadThrew(message: string)

  /**
   * One `fetch` to the completion gateway: it threw, or it answered with an
   * `ok` flag; `read` is what reading the answer gave. For the
   * recommendation call that is `.text()` when the answer is not ok and
   * `.json()` then `choices[0].message.content` when it is; the translation
   * call is always read the second way, ok or not.
   */
  datatype Call = Threw(message: string) | Answered(ok: bool, read: BodyText)

  /** The store insert with `.select().single()`: the store's error, or the stored row. */
  datatype StoreResult = InsertError(message: string) | Stored(row: map<string, Value>)

  /** Everything the handler learns from outside, in one record. */
  datatype Collaborators = Collaborators(
    auth: AuthResult,
    apiKey: Option<string>,
    primary: Call,
    translation: Call,
    store: StoreResult)

  // ---------------------------------------------------------------------
  // Effects and responses
  // ---------------------------------------------------------------------

  /** The row given to the store, one field per column. */
  datatype Row = Row(
    userId: string,              // user_id
    datasetId: Value,            // dataset_id
    soilData: Value,             // soil_data
    climateData: Value,          // climate_data
    recommendedCrops: seq<string>, // recommended_crops
    recommendationText: string,  // recommendation_text
    recommendationSwahili: string) // recommendation_swahili

  datatype Effect =
    | LookUpUser
    | ReadBody
    | Complete(key: string, ask: Ask)   // one chat-completion call; Prompts.CompletionFor gives its payload
    | Insert(row: Row)

  datatype Response = Response(status: int, headers: map<string, string>, body: Option<Value>)

  datatype Outcome = Outcome(response: Response, effects: seq<Effect>)

  const CorsHeaders: map<string, string> := map[
    "Access-Control-Allow-Origin" := "*",
    "Access-Control-Allow-Headers" := "authorization, x-client-info, apikey, content-type"]

  const MissingKeyMessage := "LOVABLE_API_KEY is not configured"
  const GenerationFailedMessage := "Failed to generate recommendations"

  /** The TypeError the engine (V8) throws when destructuring `null` or `undefined`. */
  function DestructureMessage(v: Value): string
  {
    "Cannot destructure property 'location' of '(intermediate value)' as it is "
      + (if v.Null? then "null" else "undefined") + "."
  }

  /** A JSON reply: the CORS headers plus the JSON content type. */
  function JsonResponse(status: int, body: Value): (r: Response)
    ensures CarriesCors(r.headers)
  {
    JsonHeadersKeepCors();
    Response(status, CorsHeaders["Content-Type" := "application/json"], Some(body))
  }

  function ErrorResponse(status: int, message: string): Response
  {
    JsonResponse(status, Obj(map["error" := Str(message)]))
  }

  /** The `catch` clause: any exception becomes 500 with its message. */
  function Caught(message: string, effects: seq<Effect>): (out: Outcome)
    ensures out.response.status == 500 && CarriesCors(out.response.headers)
    ensures out.response.body == Some(Obj(map["error" := Str(message)]))
    ensures out.effects == effects
  {
    Outcome(ErrorResponse(500, message), effects)
  }

  /** `userError || !user`: the check resolved but names no user. */
  predicate AuthFails(a: AuthResult)
  {
    a.Checked? && (a.error.Some? || a.user.None?)
  }

  /** The check resolved with a user and no error. */
  predicate Authenticated(a: AuthResult)
  {
    a.Checked? && a.error.None? && a.user.Some?
  }

  /** `!LOVABLE_API_KEY`: unset or empty. */
  predicate KeyMissing(key: Option<string>)
  {
    key.None? || key.value == ""
  }

  predicate KnownStatus(status: int)
  {
    status == 200 || status == 400 || status == 401 || status == 500
  }

  lemma JsonHeadersKeepCors()
    ensures CarriesCors(CorsHeaders["Content-Type" := "application/json"])
  {
    assert "Content-Type" !in CorsHeaders;
  }

  /** Both CORS headers are present with their fixed values. */
  predicate CarriesCors(h: map<string, string>)
  {
    forall k :: k in CorsHeaders ==> k in h && h[k] == CorsHeaders[k]
  }

  /** The effect at position i is the one the handler's i-th step causes. */
  predicate StepAt(i: nat, e: Effect)
  {
    match e
    case LookUpUser => i == 0
    case ReadBody => i == 1
    case Complete(_, ask) => (i == 2 && ask.AskRecommendation?) || (i == 3 && ask.AskTranslation?)
    case Insert(_) => i == 4
  }

  /**
   * The effects are a prefix of: identity check, body read, recommendation
   * call, translation call, insert. So there are at most two completion
   * calls and at most one insert, always in this order.
   */
  predicate InStepOrder(es: seq<Effect>)
  {
    |es| <= 5 && forall i :: 0 <= i < |es| ==> StepAt(i, es[i])
  }

  /**
   * The body can be destructured: it parsed, and not to null. `req.json()`
   * never yields undefined, so `Parsed(Undefined)` is unreachable; it is
   * kept only so that every `Value` has a defined outcome.
   */
  predicate BodyUsable(b: BodyRead)
  {
    b.Parsed? && !b.json.Null? && !b.json.Undefined?
  }

  /** A call that answered (ok or not) with a readable body. */
  predicate AnsweredWithText(call: Call)
  {
    call.Answered? && call.read.Content?
  }

  /** Every step before the insert went through, so the handler reaches the store. */
  predicate RunsToInsert(req: Request, c: Collaborators)
  {
    && req.httpMethod != "OPTIONS"
    && Authenticated(c.auth)
    && BodyUsable(req.body)
    && !KeyMissing(c.apiKey)
    && FieldsPrintable(Destructure(req.body.json))
    && AnsweredWithText(c.primary) && c.primary.ok
    && AnsweredWithText(c.translation)
  }

  // ---------------------------------------------------------------------
  // The handler
  // ---------------------------------------------------------------------

  /**
   * One request, start to finish. Every response carries the CORS headers
   * and one of four statuses, and the effects follow the fixed order of the
   * handler's steps: at most two completion calls and at most one insert.
   */
  function Handle(req: Request, c: Collaborators): (out: Outcome)
    ensures KnownStatus(out.response.status)
    ensures CarriesCors(out.response.headers)
    ensures InStepOrder(out.effects)
    ensures |out.effects| == 5 <==> RunsToInsert(req, c)
  {
    if req.httpMethod == "OPTIONS" then
      Outcome(Response(200, CorsHeaders, None), [])
    else if c.auth.LookupThrew? then
      Caught(c.auth.message, [LookUpUser])
    else if AuthFails(c.auth) then
      Outcome(ErrorResponse(401, "Unauthorized"), [LookUpUser])
    else
      AfterAuth(req.body, c, c.auth.user.value)
  }

  /** From the body read on, once the caller is known to be `user`. */
  function AfterAuth(body: BodyRead, c: Collaborators, user: User): (out: Outcome)
    ensures out.response.status in {200, 400, 500}
    ensures CarriesCors(out.response.headers)
    ensures InStepOrder(out.effects) && |out.effects| >= 2
    ensures |out.effects| == 5 <==>
              && BodyUsable(body) && !KeyMissing(c.apiKey) && FieldsPrintable(Destructure(body.json))
              && AnsweredWithText(c.primary) && c.primary.ok && AnsweredWithText(c.translation)
  {
    var effects := [LookUpUser, ReadBody];
    match body
    case Unparsable(msg) => Caught(msg, effects)
    case Parsed(json) =>
      if json.Null? || json.Undefined? then Caught(DestructureMessage(json), effects)
      else if KeyMissing(c.apiKey) then Caught(MissingKeyMessage, effects)
      else if !FieldsPrintable(Destructure(json)) then Caught(ConversionMessage, effects)
      else
        Generate(Destructure(json), c, user, c.apiKey.value)
  }

  /** The four body fields the handler destructures; any other field is ignored. */
  datatype Fields = Fields(location: Value, soilType: Value, rainfall: Value, datasetId: Value)

  /** `const { location, soilType, rainfall, datasetId } = json`: four property reads. */
  function Destructure(json: Value): (f: Fields)
    ensures f.location == Property(json, "location") && f.soilType == Property(json, "soilType")
    ensures f.rainfall == Property(json, "rainfall") && f.datasetId == Property(json, "datasetId")
    ensures !json.Obj? ==> f == Fields(Undefined, Undefined, Undefined, Undefined)
  {
    Fields(Property(json, "location"), Property(json, "soilType"),
           Property(json, "rainfall"), Property(json, "datasetId"))
  }

  /**
   * The template literal can convert the three fields it embeds; otherwise
   * building the prompt throws before any completion call.
   */
  predicate FieldsPrintable(f: Fields)
  {
    Renderable(PrimaryAsk(f))
  }

  /** The recommendation call asks about the three template fields of the body. */
  function PrimaryAsk(f: Fields): Ask
  {
    AskRecommendation(f.location, f.soilType, f.rainfall)
  }

  /** The row inserted for `user` from the body fields and the two texts. */
  function RowFor(user: User, f: Fields, text: string, swahili: string): (r: Row)
    ensures r.userId == user.id
    ensures Truthy(r.datasetId) <==> Truthy(f.datasetId)
    ensures r.datasetId == f.datasetId || r.datasetId == Null
    ensures !Truthy(f.datasetId) ==> r.datasetId == Null
    ensures r.soilData.Obj? && r.soilData.fields.Keys == {"soilType"} && r.soilData.fields["soilType"] == f.soilType
    ensures r.climateData.Obj? && r.climateData.fields.Keys == {"location", "rainfall"}
    ensures r.climateData.fields["location"] == f.location && r.climateData.fields["rainfall"] == f.rainfall
    ensures r.recommendedCrops == [] <==> forall m: Span :: !Fits(text, m)
    ensures forall k :: 0 <= k < |r.recommendedCrops| ==>
              IsTrimmed(r.recommendedCrops[k]) && ':' !in r.recommendedCrops[k] && '\n' !in r.recommendedCrops[k]
    ensures r.recommendationText == text && r.recommendationSwahili == swahili
  {
    CropExtractionFacts.ExtractedNamesClean(text);
    Row(user.id, OrNull(f.datasetId),
        Obj(map["soilType" := f.soilType]),
        Obj(map["location" := f.location, "rainfall" := f.rainfall]),
        ExtractCrops(text), text, swahili)
  }

  /** The recommendation call and, if it produced text, what follows. */
  function Generate(f: Fields, c: Collaborators, user: User, key: string): (out: Outcome)
    requires FieldsPrintable(f)
    ensures out.response.status in {200, 400, 500}
    ensures CarriesCors(out.response.headers)
    ensures InStepOrder(out.effects) && |out.effects| >= 3
    ensures out.effects[2] == Complete(key, PrimaryAsk(f))
    ensures |out.effects| == 5 <==> AnsweredWithText(c.primary) && c.primary.ok && AnsweredWithText(c.translation)
  {
    var effects := [LookUpUser, ReadBody, Complete(key, PrimaryAsk(f))];
    match c.primary
    case Threw(msg) => Caught(msg, effects)
    case Answered(false, ReadThrew(msg)) => Caught(msg, effects)
    case Answered(false, Content(_)) => Outcome(ErrorResponse(500, GenerationFailedMessage), effects)
    case Answered(true, ReadThrew(msg)) => Caught(msg, effects)
    case Answered(true, Content(text)) => Translate(f, c, user, key, text)
  }

  /** The translation call; an answer that is not ok is only logged. */
  function Translate(f: Fields, c: Collaborators, user: User, key: string, text: string): (out: Outcome)
    ensures out.response.status in {200, 400, 500}
    ensures CarriesCors(out.response.headers)
    ensures InStepOrder(out.effects) && |out.effects| >= 4
    ensures out.effects[2] == Complete(key, PrimaryAsk(f))
    ensures out.effects[3] == Complete(key, AskTranslation(text))
    ensures |out.effects| == 5 <==> AnsweredWithText(c.translation)
  {
    var effects := [LookUpUser, ReadBody, Complete(key, PrimaryAsk(f)), Complete(key, AskTranslation(text))];
    match c.translation
    case Threw(msg) => Caught(msg, effects)
    case Answered(_, ReadThrew(msg)) => Caught(msg, effects)
    case Answered(_, Content(swahili)) =>
      var row := RowFor(user, f, text, swahili);
      TranslatedTracesInOrder(effects, row);
      Persist(row, c.store, effects + [Insert(row)])
  }

  /** Both traces the translation step can end with keep the step order. */
  lemma TranslatedTracesInOrder(effects: seq<Effect>, row: Row)
    requires |effects| == 4 && effects[..2] == [LookUpUser, ReadBody]
    requires effects[2].Complete? && effects[2].ask.AskRecommendation?
    requires effects[3].Complete? && effects[3].ask.AskTranslation?
    ensures InStepOrder(effects) && InStepOrder(effects + [Insert(row)])
  {
    assert effects[0] == LookUpUser && effects[1] == ReadBody;
  }

  /** The insert's outcome decides the reply: 400 with the store's message, or the merged record. */
  function Persist(row: Row, store: StoreResult, effects: seq<Effect>): (out: Outcome)
    ensures out.response.status == 200 <==> store.Stored?
    ensures out.response.status == 400 <==> store.InsertError?
    ensures CarriesCors(out.response.headers)
    ensures out.effects == effects
  {
    match store
    case InsertError(msg) => Outcome(ErrorResponse(400, msg), effects)
    case Stored(stored) =>
      var merged := stored["recommendationText" := Str(row.recommendationText)]
                          ["recommendationSwahili" := Str(row.recommendationSwahili)];
      Outcome(JsonResponse(200, Obj(map["recommendation" := Obj(merged)])), effects)
  }
}

=== FILE: pipeline_facts.dfy ===
/**
 * What the handler guarantees, stated over all requests and all
 * collaborator outcomes.
 */
module RecommendCropsFacts {
  import opened Optional
  import opened JsValues
  import opened CropExtraction
  import CropExtractionFacts
  import opened Prompts
  import opened RecommendCrops

  /** The fields the handler destructures from a usable body. */
  function BodyFields(req: Request): Fields
    requires BodyUsable(req.body)
  {
    Destructure(req.body.json)
  }

  /** A preflight request is answered 200 with no body and causes no effect at all. */
  lemma PreflightIsInert(req: Request, c: Collaborators)
    requires req.httpMethod == "OPTIONS"
    ensures Handle(req, c).response == Response(200, CorsHeaders, None)
    ensures Handle(req, c).effects == []
  {
  }

  /**
   * A failed identity check answers 401 `{error: "Unauthorized"}`; the
   * body is not read, no completion is requested and nothing is inserted.
   */
  lemma UnauthorizedShortCircuits(req: Request, c: Collaborators)
    requires req.httpMethod != "OPTIONS" && AuthFails(c.auth)
    ensures Handle(req, c).response == ErrorResponse(401, "Unauthorized")
    ensures Handle(req, c).effects == [LookUpUser]
  {
  }

  /** 401 is answered exactly for non-preflight requests that fail the identity check. */
  lemma UnauthorizedExactly(req: Request, c: Collaborators)
    ensures Handle(req, c).response.status == 401 <==> req.httpMethod != "OPTIONS" && AuthFails(c.auth)
  {
  }

  /**
   * An identity check that rejects is an exception inside the `try`: 500
   * with its message after the lookup alone, and the body is never read.
   */
  lemma LookupExceptionIsServerError(req: Request, c: Collaborators)
    requires req.httpMethod != "OPTIONS" && c.auth.LookupThrew?
    ensures Handle(req, c).response == ErrorResponse(500, c.auth.message)
    ensures Handle(req, c).effects == [LookUpUser]
  {
  }

  /**
   * A body that cannot be destructured (unparsable JSON, or `null`) is an
   * exception after the identity check: 500 with its message, before any
   * completion call.
   */
  lemma UnusableBodyIsServerError(req: Request, c: Collaborators)
    requires req.httpMethod != "OPTIONS" && Authenticated(c.auth) && !BodyUsable(req.body)
    ensures Handle(req, c).response
            == ErrorResponse(500, if req.body.Unparsable? then req.body.message else DestructureMessage(req.body.json))
    ensures Handle(req, c).effects == [LookUpUser, ReadBody]
  {
    assert Handle(req, c) == AfterAuth(req.body, c, c.auth.user.value);
  }

  /**
   * A missing or empty API key is thrown after the identity check and the
   * body read, and before any completion call; the catch answers 500.
   */
  lemma MissingKeyStopsBeforeCompletion(req: Request, c: Collaborators)
    requires req.httpMethod != "OPTIONS" && Authenticated(c.auth) && BodyUsable(req.body)
    requires KeyMissing(c.apiKey)
    ensures Handle(req, c).response == ErrorResponse(500, MissingKeyMessage)
    ensures Handle(req, c).effects == [LookUpUser, ReadBody]
  {
  }

  /**
   * The recommendation request carries the API key, the fixed model and
   * persona, and the template filled with the body's fields.
   */
  lemma RecommendationRequestSent(req: Request, c: Collaborators)
    requires req.httpMethod != "OPTIONS" && Authenticated(c.auth) && BodyUsable(req.body)
    requires !KeyMissing(c.apiKey) && FieldsPrintable(BodyFields(req))
    ensures var out := Handle(req, c);
            var f := BodyFields(req);
            && |out.effects| >= 3
            && out.effects[2] == Complete(c.apiKey.value, AskRecommendation(f.location, f.soilType, f.rainfall))
            && CompletionFor(c.apiKey.value, out.effects[2].ask)
               == Completion(Bearer(c.apiKey.value), Model, AdvisorPersona,
                             RecommendationPrompt(f.location, f.soilType, f.rainfall))
  {
    var f := BodyFields(req);
    assert Handle(req, c) == Generate(f, c, c.auth.user.value, c.apiKey.value);
  }

  /**
   * A template field that cannot be converted to text (an object with its
   * own `toString` field, or an array holding one) throws while the prompt
   * is built, after the key check and before any completion call; the
   * catch answers 500 with the engine's message.
   */
  lemma UnprintableFieldIsServerError(req: Request, c: Collaborators)
    requires req.httpMethod != "OPTIONS" && Authenticated(c.auth) && BodyUsable(req.body)
    requires !KeyMissing(c.apiKey) && !FieldsPrintable(BodyFields(req))
    ensures Handle(req, c).response == ErrorResponse(500, ConversionMessage)
    ensures Handle(req, c).effects == [LookUpUser, ReadBody]
  {
  }

  /** `{"location": {"toString": 1}, "soilType": "loam", "rainfall": 800}` is such a body. */
  lemma ExampleShadowedToString(c: Collaborators)
    requires Authenticated(c.auth) && !KeyMissing(c.apiKey)
    ensures var body := Obj(map["location" := Obj(map["toString" := Num("1")]),
                                "soilType" := Str("loam"), "rainfall" := Num("800")]);
            Handle(Request("POST", Parsed(body)), c).response == ErrorResponse(500, ConversionMessage)
  {
    var body := Obj(map["location" := Obj(map["toString" := Num("1")]),
                        "soilType" := Str("loam"), "rainfall" := Num("800")]);
    var req := Request("POST", Parsed(body));
    assert !Printable(BodyFields(req).location);
    UnprintableFieldIsServerError(req, c);
  }

  /**
   * A recommendation answer that is not ok stops the handler with 500
   * "Failed to generate recommendations": one completion call, no
   * translation, no insert.
   */
  lemma PrimaryNotOkHalts(req: Request, c: Collaborators, errorText: string)
    requires req.httpMethod != "OPTIONS" && Authenticated(c.auth) && BodyUsable(req.body)
    requires !KeyMissing(c.apiKey) && FieldsPrintable(BodyFields(req))
    requires c.primary == Answered(false, Content(errorText))
    ensures Handle(req, c).response == ErrorResponse(500, GenerationFailedMessage)
    ensures |Handle(req, c).effects| == 3
  {
  }

  /** A recommendation call that throws, or whose answer cannot be read, is a 500 with that message. */
  lemma PrimaryExceptionIsServerError(req: Request, c: Collaborators, msg: string)
    requires req.httpMethod != "OPTIONS" && Authenticated(c.auth) && BodyUsable(req.body)
    requires !KeyMissing(c.apiKey) && FieldsPrintable(BodyFields(req))
    requires c.primary == Threw(msg) || (c.primary.Answered? && c.primary.read == ReadThrew(msg))
    ensures Handle(req, c).response == ErrorResponse(500, msg)
    ensures |Handle(req, c).effects| == 3
  {
    var f := BodyFields(req);
    assert Handle(req, c) == Generate(f, c, c.auth.user.value, c.apiKey.value);
  }

  /**
   * The translation request carries the recommendation text verbatim
   * after the fixed translation head.
   */
  lemma TranslationRequestSent(req: Request, c: Collaborators, text: string)
    requires req.httpMethod != "OPTIONS" && Authenticated(c.auth) && BodyUsable(req.body)
    requires !KeyMissing(c.apiKey) && FieldsPrintable(BodyFields(req))
    requires c.primary == Answered(true, Content(text))
    ensures var out := Handle(req, c);
            && |out.effects| >= 4
            && out.effects[3] == Complete(c.apiKey.value, AskTranslation(text))
            && CompletionFor(c.apiKey.value, out.effects[3].ask)
               == Completion(Bearer(c.apiKey.value), Model, TranslatorPersona, TranslationPrompt(text))
  {
    var f := BodyFields(req);
    assert Handle(req, c) == Translate(f, c, c.auth.user.value, c.apiKey.value, text);
  }

  /**
   * The translation answer's `ok` flag changes nothing: a failed
   * translation is logged and the handler goes on to read its body.
   */
  lemma TranslationStatusIgnored(req: Request, c: Collaborators, read: BodyText)
    ensures Handle(req, c.(translation := Answered(true, read)))
         == Handle(req, c.(translation := Answered(false, read)))
  {
  }

  /**
   * A translation that throws, or whose body cannot be read (as happens
   * when a failed answer has no `choices`), surfaces as 500 with that
   * message; nothing is inserted.
   */
  lemma TranslationExceptionIsServerError(req: Request, c: Collaborators, text: string, msg: string)
    requires req.httpMethod != "OPTIONS" && Authenticated(c.auth) && BodyUsable(req.body)
    requires !KeyMissing(c.apiKey) && FieldsPrintable(BodyFields(req))
    requires c.primary == Answered(true, Content(text))
    requires c.translation == Threw(msg) || (c.translation.Answered? && c.translation.read == ReadThrew(msg))
    ensures Handle(req, c).response == ErrorResponse(500, msg)
    ensures |Handle(req, c).effects| == 4
  {
    var f := BodyFields(req);
    assert Handle(req, c) == Translate(f, c, c.auth.user.value, c.apiKey.value, text);
  }

  /** The handler reaches the store exactly when every earlier step went through. */
  lemma InsertExactlyWhenAllStepsSucceed(req: Request, c: Collaborators)
    ensures (exists i :: 0 <= i < |Handle(req, c).effects| && Handle(req, c).effects[i].Insert?)
            <==> RunsToInsert(req, c)
  {
    var es := Handle(req, c).effects;
    if RunsToInsert(req, c) {
      InsertedRow(req, c);
    }
    forall i | 0 <= i < |es| && es[i].Insert?
      ensures RunsToInsert(req, c)
    {
      assert StepAt(i, es[i]);
    }
  }

  /**
   * The inserted row: `user_id` is the authenticated user's id, whatever the
   * body says; `dataset_id` is `datasetId || null`; `soil_data` and
   * `climate_data` wrap the body fields; `recommended_crops` is the
   * extraction of the English text; both texts are stored verbatim.
   */
  lemma InsertedRow(req: Request, c: Collaborators)
    requires RunsToInsert(req, c)
    ensures var es := Handle(req, c).effects;
            var f := BodyFields(req);
            var text := c.primary.read.text;
            && |es| == 5
            && es[4].Insert?
            && es[4].row.userId == c.auth.user.value.id
            && es[4].row.datasetId == (if Truthy(f.datasetId) then f.datasetId else Null)
            && es[4].row.soilData == Obj(map["soilType" := f.soilType])
            && es[4].row.climateData == Obj(map["location" := f.location, "rainfall" := f.rainfall])
            && es[4].row.recommendedCrops == ExtractCrops(text)
            && es[4].row.recommendationText == text
            && es[4].row.recommendationSwahili == c.translation.read.text
  {
  }

  /**
   * A body field other than the four the handler reads (a `user_id`, say)
   * changes nothing at all: not the row, not the response.
   */
  lemma BodyCannotChooseOwner(req: Request, c: Collaborators, fields: map<string, Value>, key: string, v: Value)
    requires req.body == Parsed(Obj(fields))
    requires key != "location" && key != "soilType" && key != "rainfall" && key != "datasetId"
    ensures Handle(req.(body := Parsed(Obj(fields[key := v]))), c) == Handle(req, c)
  {
    var req' := req.(body := Parsed(Obj(fields[key := v])));
    assert Destructure(Obj(fields[key := v])) == Destructure(Obj(fields));
    if req.httpMethod != "OPTIONS" && Authenticated(c.auth) {
      SameFieldsSameOutcome(req'.body, req.body, c, c.auth.user.value);
    }
  }

  /** After the identity check, the handler sees a usable body only through its four fields. */
  lemma SameFieldsSameOutcome(b: BodyRead, b': BodyRead, c: Collaborators, user: User)
    requires BodyUsable(b) && BodyUsable(b')
    requires Destructure(b.json) == Destructure(b'.json)
    ensures AfterAuth(b, c, user) == AfterAuth(b', c, user)
  {
  }

  /** An insert error answers 400 with the store's message. */
  lemma StoreErrorIsClientError(req: Request, c: Collaborators, msg: string)
    requires RunsToInsert(req, c) && c.store == InsertError(msg)
    ensures Handle(req, c).response == ErrorResponse(400, msg)
  {
  }

  /**
   * A stored row is answered 200 as `{recommendation: ...}`: the row as the
   * store returned it, with the English and Swahili texts added.
   */
  lemma StoredRowIsEchoed(req: Request, c: Collaborators, stored: map<string, Value>)
    requires RunsToInsert(req, c) && c.store == Stored(stored)
    ensures var r := Handle(req, c).response;
            && r.status == 200
            && r.body.Some? && r.body.value.Obj?
            && r.body.value.fields.Keys == {"recommendation"}
            && var rec := r.body.value.fields["recommendation"];
               && rec.Obj?
               && rec.fields.Keys == stored.Keys + {"recommendationText", "recommendationSwahili"}
               && rec.fields["recommendationText"] == Str(c.primary.read.text)
               && rec.fields["recommendationSwahili"] == Str(c.translation.read.text)
               && (forall k :: k in stored && k != "recommendationText" && k != "recommendationSwahili"
                     ==> rec.fields[k] == stored[k])
  {
    var text, swahili := c.primary.read.text, c.translation.read.text;
    var merged := stored["recommendationText" := Str(text)]["recommendationSwahili" := Str(swahili)];
    assert Handle(req, c).response.body == Some(Obj(map["recommendation" := Obj(merged)]));
    MergeKeepsColumns(stored, text, swahili);
  }

  /** The spread `{...row, recommendationText, recommendationSwahili}`. */
  lemma MergeKeepsColumns(stored: map<string, Value>, text: string, swahili: string)
    ensures var merged := stored["recommendationText" := Str(text)]["recommendationSwahili" := Str(swahili)];
            && merged.Keys == stored.Keys + {"recommendationText", "recommendationSwahili"}
            && merged["recommendationText"] == Str(text)
            && merged["recommendationSwahili"] == Str(swahili)
            && (forall k :: k in stored && k != "recommendationText" && k != "recommendationSwahili"
                  ==> merged[k] == stored[k])
  {
  }

  /** 200 is answered exactly for preflights and for rows the store accepted. */
  lemma SuccessExactly(req: Request, c: Collaborators)
    ensures Handle(req, c).response.status == 200
            <==> req.httpMethod == "OPTIONS" || (RunsToInsert(req, c) && c.store.Stored?)
  {
  }

  /** 400 is answered exactly when the store rejected the insert. */
  lemma ClientErrorExactly(req: Request, c: Collaborators)
    ensures Handle(req, c).response.status == 400 <==> RunsToInsert(req, c) && c.store.InsertError?
  {
  }

  /**
   * A three-item numbered list, one name per line: a recommendation listing
   * Maize, Beans and Cassava is stored with those three crop names.
   */
  lemma ExampleThreeCropsStored(req: Request, c: Collaborators)
    requires RunsToInsert(req, c)
    requires c.primary.read.text == CropExtractionFacts.ThreeCrops
    ensures Handle(req, c).effects[4].row.recommendedCrops == ["Maize", "Beans", "Cassava"]
  {
    InsertedRow(req, c);
    CropExtractionFacts.ExampleThreeCrops();
  }
}

=== FILE: prompts.dfy ===
/**
 * The two prompts the handler sends to the completion service, and the
 * fixed parts of each completion request.
 */
module Prompts {
  import opened JsValues

  /** The completion model named in both requests. */
  const Model := "google/gemini-2.5-flash"

  /** System message of the recommendation request. */
  const AdvisorPersona := "You are an expert agricultural advisor specializing in crop recommendations based on soil and climate analysis."

  /** System message of the translation request. */
  const TranslatorPersona := "You are a professional translator specializing in agricultural terminology. Translate to Swahili accurately."

  // The recommendation template, cut at its three substitutions.
  const RecommendationHead := "You are an expert agricultural advisor helping farmers. Based on the following simple farm information, recommend the top 3-5 most suitable crops to grow.\n\nFarm Information:\n- Location: "
  const SoilLabel := "\n- Soil Type: "
  const RainfallLabel := "\n- Annual Rainfall: "
  const RecommendationTail := " mm\n\nProvide practical recommendations in simple language that a farmer can understand. For each crop, explain:\n1. Crop name and variety (use local names if known)\n2. Why it's good for this soil and rainfall\n3. When to plant\n4. Basic care tips\n5. Expected harvest time\n\nKeep language simple and practical."

  /** The fixed text in front of the English recommendation in the translation prompt. */
  const TranslationHead := "Translate the following crop recommendation to Swahili. Maintain the structure and keep technical terms clear:\n\n"

  /**
   * `p` is the recommendation template with `l`, `t` and `r` in its three
   * slots: every piece sits at the offset fixed by the template and the
   * lengths of the pieces before it.
   */
  ghost predicate FillsTemplate(p: string, l: string, t: string, r: string)
  {
    var i0 := |RecommendationHead|;
    var i1 := i0 + |l|;
    var i2 := i1 + |SoilLabel|;
    var i3 := i2 + |t|;
    var i4 := i3 + |RainfallLabel|;
    var i5 := i4 + |r|;
    && |p| == i5 + |RecommendationTail|
    && p[..i0] == RecommendationHead
    && p[i0..i1] == l
    && p[i1..i2] == SoilLabel
    && p[i2..i3] == t
    && p[i3..i4] == RainfallLabel
    && p[i4..i5] == r
    && p[i5..] == RecommendationTail
  }

  /**
   * The recommendation prompt: the template literal with `${location}`,
   * `${soilType}` and `${rainfall}` replaced by `String(...)` of each field.
   */
  function RecommendationPrompt(location: Value, soilType: Value, rainfall: Value): (p: string)
    requires Printable(location) && Printable(soilType) && Printable(rainfall)
    ensures FillsTemplate(p, ToText(location), ToText(soilType), ToText(rainfall))
  {
    var l, t, r := ToText(location), ToText(soilType), ToText(rainfall);
    TemplateOffsets(l, t, r);
    RecommendationHead + l + SoilLabel + t + RainfallLabel + r + RecommendationTail
  }

  lemma TemplateOffsets(l: string, t: string, r: string)
    ensures FillsTemplate(RecommendationHead + l + SoilLabel + t + RainfallLabel + r + RecommendationTail, l, t, r)
  {
    SevenPieces(RecommendationHead, l, SoilLabel, t, RainfallLabel, r, RecommendationTail);
  }

  /** Where each piece of a seven-piece concatenation lies. */
  lemma SevenPieces(a: string, b: string, c: string, d: string, e: string, f: string, g: string)
    ensures var p := a + b + c + d + e + f + g;
            var i0 := |a|;
            var i1 := i0 + |b|;
            var i2 := i1 + |c|;
            var i3 := i2 + |d|;
            var i4 := i3 + |e|;
            var i5 := i4 + |f|;
            && |p| == i5 + |g|
            && p[..i0] == a && p[i0..i1] == b && p[i1..i2] == c && p[i2..i3] == d
            && p[i3..i4] == e && p[i4..i5] == f && p[i5..] == g
  {
  }

  /** The translation prompt: the fixed head, then the English text verbatim. */
  function TranslationPrompt(text: string): (p: string)
    ensures |p| == |TranslationHead| + |text|
    ensures p[..|TranslationHead|] == TranslationHead
    ensures p[|TranslationHead|..] == text
  {
    TranslationHead + text
  }

  /** The text a translation prompt carries, read back from after the fixed head. */
  function TranslatedText(p: string): string
    requires |TranslationHead| <= |p|
  {
    p[|TranslationHead|..]
  }

  /** The English text is recoverable from the translation prompt: nothing is lost or added. */
  lemma TranslationPromptRoundTrip(text: string)
    ensures TranslatedText(TranslationPrompt(text)) == text
  {
  }

  /** What a completion call asks for: recommendations for three body fields, or a translation. */
  datatype Ask =
    | AskRecommendation(location: Value, soilType: Value, rainfall: Value)
    | AskTranslation(text: string)

  /** The parts of one chat-completion request that vary: header, model, system and user messages. */
  datatype Completion = Completion(authorization: string, model: string, system: string, prompt: string)

  /** The prompt for `ask` can be built: the template's three fields all convert to text. */
  predicate Renderable(ask: Ask)
  {
    ask.AskRecommendation? ==> Printable(ask.location) && Printable(ask.soilType) && Printable(ask.rainfall)
  }

  /**
   * The request sent for `ask` with API key `key`: both calls name the same
   * model and carry the key as a bearer token; each has its own persona and
   * prompt.
   */
  function CompletionFor(key: string, ask: Ask): (r: Completion)
    requires Renderable(ask)
    ensures r.authorization == Bearer(key) && r.model == Model
    ensures ask.AskRecommendation? ==>
              && r.system == AdvisorPersona
              && FillsTemplate(r.prompt, ToText(ask.location), ToText(ask.soilType), ToText(ask.rainfall))
    ensures ask.AskTranslation? ==>
              && r.system == TranslatorPersona
              && |TranslationHead| <= |r.prompt|
              && r.prompt[..|TranslationHead|] == TranslationHead
              && TranslatedText(r.prompt) == ask.text
  {
    match ask
    case AskRecommendation(l, t, rf) => Completion(Bearer(key), Model, AdvisorPersona, RecommendationPrompt(l, t, rf))
    case AskTranslation(text) => Completion(Bearer(key), Model, TranslatorPersona, TranslationPrompt(text))
  }

  /** The `Authorization` header value of both completion requests. */
  function Bearer(key: string): (h: string)
    ensures |h| == 7 + |key| && h[..7] == "Bearer " && h[7..] == key
  {
    "Bearer " + key
  }
}

=== FILE: values.dfy ===
/**
 * The JavaScript values that travel through the handler: the fields of the
 * request body, the columns of the stored row and the JSON response bodies.
 * Numbers are carried as their JavaScript string form, because number
 * formatting and floating point are outside this model.
 */
module JsValues {

  datatype Value =
    | Undefined
    | Null
    | Bool(b: bool)
      /**
       * A number, given by the text `String(n)` produces for it: the
       * canonical form, so "0" for both zeros and never "0.0" or "00".
       */
    | Num(text: string)
    | Str(s: string)
    | Arr(items: seq<Value>)
    | Obj(fields: map<string, Value>)

  /** The TypeError the engine throws when an object has no usable `toString` or `valueOf`. */
  const ConversionMessage := "Cannot convert object to primitive value"

  /**
   * `String(v)` returns instead of throwing. A parsed JSON object whose own
   * `toString` field shadows the inherited method cannot be converted: the
   * field is not callable, and the inherited `valueOf` returns the object
   * itself. An array converts through `join`, so through each of its items.
   */
  predicate Printable(v: Value)
  {
    match v
    case Obj(m) => "toString" !in m
    case Arr(xs) => forall i :: 0 <= i < |xs| ==> Printable(xs[i])
    case _ => true
  }

  /** JavaScript's `String(v)`, which a template literal applies to each `${v}`. */
  function ToText(v: Value): (r: string)
    requires Printable(v)
    ensures v.Undefined? ==> r == "undefined"
    ensures v.Null? ==> r == "null"
    ensures v.Bool? ==> r == (if v.b then "true" else "false")
    ensures v.Str? ==> r == v.s
    ensures v.Num? ==> r == v.text
    ensures v.Obj? ==> r == "[object Object]"
    ensures v.Arr? && |v.items| == 0 ==> r == ""
    ensures v.Arr? && |v.items| == 1 ==>
              r == (if v.items[0].Null? || v.items[0].Undefined? then "" else ToText(v.items[0]))
  {
    match v
    case Undefined => "undefined"
    case Null => "null"
    case Bool(b) => if b then "true" else "false"
    case Num(t) => t
    case Str(s) => s
    case Arr(xs) => JoinItems(xs)
    case Obj(_) => "[object Object]"
  }

  /** `Array.prototype.join(",")`: `null` and `undefined` items print as nothing. */
  function JoinItems(xs: seq<Value>): string
    requires forall i :: 0 <= i < |xs| ==> Printable(xs[i])
  {
    if |xs| == 0 then ""
    else
      var first := if xs[0].Undefined? || xs[0].Null? then "" else ToText(xs[0]);
      if |xs| == 1 then first else first + "," + JoinItems(xs[1..])
  }

  /**
   * `String([x, ...rest])` is `String([x])`, a comma, then `String(rest)`:
   * the items print in order, separated by single commas.
   */
  lemma ArrayTextSplits(xs: seq<Value>)
    requires |xs| > 1 && Printable(Arr(xs))
    ensures ToText(Arr(xs)) == ToText(Arr(xs[..1])) + "," + ToText(Arr(xs[1..]))
  {
  }

  /**
   * JavaScript truthiness of a value. For `Num` this relies on the
   * canonical text: only the numbers 0 and NaN print as "0" and "NaN".
   */
  predicate Truthy(v: Value)
  {
    match v
    case Undefined => false
    case Null => false
    case Bool(b) => b
    case Num(t) => t != "0" && t != "NaN"
    case Str(s) => s != ""
    case Arr(_) => true
    case Obj(_) => true
  }

  /**
   * The falsy values of ECMAScript's ToBoolean table: undefined, null,
   * false, +0, -0, NaN and the empty string. Every array and object,
   * even an empty one, is truthy.
   */
  lemma FalsyValues(v: Value)
    ensures !Truthy(v) <==>
              v == Undefined || v == Null || v == Bool(false) || v == Num("0") || v == Num("NaN") || v == Str("")
  {
  }

  /**
   * `v || null`: the value itself when it is truthy, `null` otherwise.
   */
  function OrNull(v: Value): (r: Value)
    ensures Truthy(r) <==> Truthy(v)
    ensures r == v || r == Null
    ensures !Truthy(v) ==> r == Null
  {
    if Truthy(v) then v else Null
  }

  /** The property names the handler destructures from the request body. */
  const DestructuredNames: set<string> := {"location", "soilType", "rainfall", "datasetId"}

  /**
   * Reading property `key` of a destructured value that is neither `null`
   * nor `undefined`: an own field of an object, `undefined` otherwise (no
   * primitive or array has a property named like the request fields).
   */
  function Property(v: Value, key: string): (r: Value)
    requires key in DestructuredNames
    ensures v.Obj? && key in v.fields ==> r == v.fields[key]
    ensures !(v.Obj? && key in v.fields) ==> r == Undefined
  {
    match v
    case Obj(m) => if key in m then m[key] else Undefined
    case _ => Undefined
  }
}
